=== FILE: README.md ===
# secp256k1 wrapper: protocol layer

A Dafny model of the protocol layer of skycoin's secp256k1 wrapper
(`src/cipher/secp256k1-go/secp256k1.go`). This layer covers:

- the key and signature validators with their integer return codes;
- the checked derivation of a public key from a secret key;
- deterministic key pairs, made by rejection sampling over iterated SHA-256;
- the ECDH-salted hash and the deterministic key-pair iterator;
- 65-byte recoverable signatures, with random or deterministic nonces;
- public-key recovery, plus the two verifiers: one returns an int, the other a reason string;
- the ECDH gate.

The curve library (`secp256k1-go2`) and SHA-256 are not modelled. They are fields of the datatype
`Primitives.Adapter`: total functions that every operation takes as a parameter. So
every property below holds for every possible library. The only promise taken
from SHA-256 is its 32-byte output, carried by the type `Bytes32`. Everything else the
library returns is checked by the wrapper itself, and the model keeps those checks.

Each `log.Panic`, `log.Fatal` and Go runtime panic (an index out of range) becomes
`Abort(reason)` in `Outcomes.Outcome`. The rejection loop of the
deterministic generator gets a `fuel` bound on the number of hashes, and it
returns `OutOfFuel` when the bound is exhausted. Lemmas show that the fuel
is only a bound: once an answer is determined, more fuel changes nothing.
They also show exactly when the fuel runs out: none of the first `fuel` iterates is a valid scalar.

Where the code departs from its own comments or from the behaviour the package documents, the model follows the code:

- `VerifySignatureValidity` stops the process with `log.Fatal` on every
  rejection, so it never returns 0. Its `return 0` lines suggest a reportable check was meant.
- `SignDeterministic` does not check the secret key or the message.
  `Sign` checks both.
- The comments at lines 371 and 399 say the top bit of byte 32 "must be 1".
  The code rejects a top bit of 1, so canonical signatures have the bit clear.
- The header comment of `VerifyPubkey` (lines 331-335) says it returns 0 for an invalid key.
  The code returns -1, -2, -3 or -4, one per failed check, and never 0.
- `Sign` and `SignDeterministic` refuse only a recovery id greater than 4, and
  byte 64 is `byte(recid)`: id 4 gives byte 4, and id -1 gives byte 255.
  `Signer.Sign` and `Signer.SignDeterministic` model that guard.
  The corrected guard is in `Signer.SignCorrected` and `Signer.SignDeterministicCorrected` (see Findings).
- In the key-pair derivation, the `goto new_seckey` lines after `log.Panic` (lines 179 and 194) can never run.
  They suggest a retry, but a missing or rejected public key stops the process.
  The model aborts there with a library-fault reason.
- In `Secp256k1Hash`, if the point multiplication returns nil, nothing is appended.
  The salted hash then degenerates to SHA256(SHA256(input)) (`Derivation.SaltedHashComposition`).

## Model

| member | source | states |
|---|---|---|
| Validators.VerifySeckey | src/cipher/secp256k1-go/secp256k1.go:314-329 | the code is -1 exactly for a length other than 32, -2 exactly for a 32-byte key the scalar check rejects, and 1 otherwise |
| Validators.VerifyPubkey | src/cipher/secp256k1-go/secp256k1.go:339-361 | the code is in {1,-1,-2,-3,-4}; each failure code holds exactly when the earlier checks pass and its own check fails (length, then PubkeyIsValid, then parse, then point validity); 1 exactly when all four pass |
| Validators.VerifyPubkeyConsultsInOrder | src/cipher/secp256k1-go/secp256k1.go:339-361 | once a check fails, replacing the library's answers to all later checks leaves the code unchanged |
| Validators.VerifySignatureValidity | src/cipher/secp256k1-go/secp256k1.go:364-383 | returns 1 exactly for a well-formed signature (65 bytes, byte 32 below 0x80, byte 64 below 4); every other signature aborts the process; it never returns 0 |
| Keys.DerivePublicKey | src/cipher/secp256k1-go/secp256k1.go:27-49 | succeeds exactly when the library generates a key that passes VerifyPubkey, and returns that key (33 bytes); every failure is a library fault |
| Keys.InternalPubkeyFromSeckey | src/cipher/secp256k1-go/secp256k1.go:17-50 | aborts on a wrong length or an invalid scalar; succeeds exactly when VerifySeckey gives 1 and the derivation succeeds; the key returned is the library's and passes VerifyPubkey |
| Keys.PubkeyFromSeckey | src/cipher/secp256k1-go/secp256k1.go:79-97 | its repeated length check and PubkeyIsValid re-check never change the outcome: it equals the internal derivation |
| Keys.HashIterateStep | src/cipher/secp256k1-go/secp256k1.go:163-164 | iterate k+1 is SHA-256 of iterate k, never of the original seed |
| Keys.KeyPairFromScalar | src/cipher/secp256k1-go/secp256k1.go:175-197 | a pair exists exactly when the checked derivation of the scalar's public key succeeds, and pairs the scalar with that key; any failure is a library fault |
| Keys.GenLoop | src/cipher/secp256k1-go/secp256k1.go:163-197 | a returned pair has a 32-byte secret key the scalar check accepts and the library's 33-byte public key of it, which passes VerifyPubkey; aborts are library faults only |
| Keys.GenLoopSound | src/cipher/secp256k1-go/secp256k1.go:163-175 | when the loop stops within the bound, it stops at the least k >= 1 whose iterate is a valid scalar |
| Keys.GenLoopPicksLeastValid | src/cipher/secp256k1-go/secp256k1.go:163-175 | if the least valid iterate k is within the bound, the result is the key pair of iterate k |
| Keys.GenLoopOutOfFuel | src/cipher/secp256k1-go/secp256k1.go:163-173 | the bound is exhausted exactly when none of the first `fuel` iterates is a valid scalar |
| Keys.GenLoopFuelMonotone | src/cipher/secp256k1-go/secp256k1.go:163-173 | once the loop has stopped, more fuel gives the same result |
| Keys.DeterministicKeyPair | src/cipher/secp256k1-go/secp256k1.go:152-198 | a seed other than 32 bytes aborts; otherwise only library faults abort, and the fuel runs out exactly when none of the first `fuel` iterates of a 32-byte seed is a valid scalar; the pair passes both validators, and PubkeyFromSeckey of its secret key gives its public key |
| Keys.DeterministicKeyPairPicksLeastValid | src/cipher/secp256k1-go/secp256k1.go:152-198 | for a 32-byte seed whose least valid iterate k is within the bound, the result is the key pair of SHA256^k(seed), and it succeeds exactly when that iterate's public key can be derived |
| Keys.DeterministicKeyIsLeastValidIterate | src/cipher/secp256k1-go/secp256k1.go:152-198 | the secret key is SHA256^k(seed) for the least valid k, and the public key is the library's public key of it |
| Keys.DeterministicKeyPairFuelMonotone | src/cipher/secp256k1-go/secp256k1.go:152-198 | more fuel never changes a pair that is already determined |
| Ecdh.ECDH | src/cipher/secp256k1-go/secp256k1.go:487-513 | aborts on wrong input lengths or a product that is not 33 bytes, and on nothing else; a public key VerifyPubkey rejects gives nil, not an abort; a non-nil result is the library's 33-byte product |
| Ecdh.EcdhIgnoresSeckeyValidity | src/cipher/secp256k1-go/secp256k1.go:496-498 | the result is the same whatever the scalar check says: an invalid secret key is only logged |
| Derivation.Secp256k1Hash | src/cipher/secp256k1-go/secp256k1.go:201-207 | aborts only on library faults (both internal seeds are 32 bytes); runs out of fuel exactly when the first internal pair does, or the first exists and the second does; a result implies that both internal key pairs exist |
| Derivation.SaltedHashComposition | src/cipher/secp256k1-go/secp256k1.go:201-207 | the result is SHA256(h ‖ product), where the product multiplies the second pair's public key by the first pair's secret key; it is SHA256(h) when the product is nil, and an abort when the product is not 33 bytes |
| Derivation.DeterministicKeyPairIterator | src/cipher/secp256k1-go/secp256k1.go:218-223 | a step exists exactly when Secp256k1Hash(seed) and the deterministic pair of SHA256(seed ‖ that hash) both exist, and runs out of fuel exactly when the first of them to be computed does; the next seed is that hash and the pair is that pair; it passes both validators; aborts are library faults only |
| Derivation.GenerateDeterministicKeyPair | src/cipher/secp256k1-go/secp256k1.go:210-213 | returns exactly the iterator's pair and fails exactly when the iterator fails |
| Derivation.IteratorKeyIsLeastValidIterate | src/cipher/secp256k1-go/secp256k1.go:218-223 | the chain's secret key is the least valid SHA-256 iterate of SHA256(seed ‖ next seed) |
| Derivation.Secp256k1HashFuelMonotone | src/cipher/secp256k1-go/secp256k1.go:201-207 | more fuel never changes a salted hash that is already determined |
| Derivation.IteratorFuelMonotone | src/cipher/secp256k1-go/secp256k1.go:218-223 | more fuel never changes a chain step that is already determined |
| Signer.AssembleAsWritten | src/cipher/secp256k1-go/secp256k1.go:250-269 | as written: succeeds exactly for return code 1, 64 bytes of r‖s and a recovery id of at most 4; byte 64 is the id's low eight bits |
| Signer.RecoveryIdFourAccepted | src/cipher/secp256k1-go/secp256k1.go:263-266 | a recovery id of 4 passes the as-written guard; the resulting signature fails the form check, and the corrected assembly aborts |
| Signer.NegativeRecoveryIdAccepted | src/cipher/secp256k1-go/secp256k1.go:299-307 | a recovery id of -1 passes the as-written guard and becomes byte 255; that signature fails the form check, and the corrected assembly aborts |
| Signer.WrappedRecoveryIdLooksLegal | src/cipher/secp256k1-go/secp256k1.go:299-307 | ids -256 to -253 pass the as-written guard and wrap to bytes 0..3, so with a low s the signature passes the form check with the wrong id; the corrected assembly aborts |
| Signer.Assemble | src/cipher/secp256k1-go/secp256k1.go:250-269 | corrected: succeeds exactly for return code 1, 64 bytes of r‖s and a recovery id in 0..3; the result is 65 bytes, with r‖s in bytes 0..63 and the id in byte 64 |
| Signer.AssembleAgreesOnLegalIds | src/cipher/secp256k1-go/secp256k1.go:263-266 | for recovery ids 0..3, the corrected and as-written assemblies coincide |
| Signer.Sign | src/cipher/secp256k1-go/secp256k1.go:226-270 | a bad key length, an invalid scalar or an empty message aborts with its own reason; otherwise it succeeds exactly when the primitive returns code 1, 64 bytes of r‖s and a recovery id of at most 4; the result holds r‖s then the id's low eight bits; it is well-formed exactly when byte 32 is below 0x80 and that byte is below 4 |
| Signer.SignDeterministic | src/cipher/secp256k1-go/secp256k1.go:273-311 | it is Sign with nonce SHA256(nonceSeed) whenever Sign's checks pass; otherwise it still signs without checking, under the same recovery-id guard (at most 4) and the same 65-byte layout |
| Signer.SignCorrected | src/cipher/secp256k1-go/secp256k1.go:226-270 | corrected: never runs out of fuel; succeeds exactly when Sign's checks pass and the primitive returns code 1, 64 bytes of r‖s and a recovery id in 0..3; equals Sign whenever that id is in 0..3; any result it returns is Sign's; where Sign succeeds with another id, it aborts; byte 64 is the id itself, and the signature is well-formed exactly when byte 32 is below 0x80 |
| Signer.SignDeterministicCorrected | src/cipher/secp256k1-go/secp256k1.go:273-311 | corrected: never runs out of fuel; with no key or message checks, succeeds exactly when the primitive returns code 1, 64 bytes of r‖s and a recovery id in 0..3; it is SignCorrected with nonce SHA256(nonceSeed) whenever Sign's checks pass, equals SignDeterministic on ids 0..3, and puts r‖s and the id itself in the 65 bytes |
| Verifier.RecoverPubkey | src/cipher/secp256k1-go/secp256k1.go:456-484 | a length other than 65 aborts; failed recovery gives nil, not an abort; a returned key is 33 bytes and is the library's recovery from r‖s with byte 64 as the id |
| Verifier.VerifySignature | src/cipher/secp256k1-go/secp256k1.go:387-425 | 1 exactly when the message is non-nil, the signature is well-formed, the key is 33 bytes and recovery yields that key; 0 for every malformed 65-byte signature; aborts exactly on nil or mis-sized input or an aborting recovery |
| Verifier.MalformedNeverConsultsRecovery | src/cipher/secp256k1-go/secp256k1.go:402-408 | a signature with byte 32 at or above 0x80, or byte 64 at or above 4, gives 0 for any recovery primitive |
| Verifier.SignatureErrorString | src/cipher/secp256k1-go/secp256k1.go:428-452 | aborts exactly when VerifySignature does; "No Error!" exactly when VerifySignature gives 1; each failure string exactly when VerifySignature gives 0 for that check, in the same order |
| Verifier.VerifiersAgree | src/cipher/secp256k1-go/secp256k1.go:387-452 | both verifiers return together, and every 0 pairs with one of the four failure strings |
| Verifier.SignThenVerify | src/cipher/secp256k1-go/secp256k1.go:410-424 | if the library recovers the signer's public key from its own r‖s and id, and s is low, then the corrected signer's signature recovers to PubkeyFromSeckey(seckey) and verifies against it |

## Findings

| source | as written | input that shows it | evidently intended | confidence | as-written member | corrected member |
|---|---|---|---|---|---|---|
| src/cipher/secp256k1-go/secp256k1.go:265 (and :305) | `if int(recid) > 4` lets recovery id 4 through, and any negative id too | sign primitive returning code 1, 64 bytes of r‖s, recovery id 4 (or -1): the signature gets byte 64 = 4 (or 255), which VerifySignature and VerifySignatureValidity refuse; ids -256 to -253 wrap to bytes 0..3, which the form checks accept, so a wrong recovery id passes silently | refuse any id outside 0..3, the range the signature layout allows | not executed; the bug shows only if the library ever returns such an id | Signer.AssembleAsWritten, Signer.Sign, Signer.SignDeterministic (shown by Signer.RecoveryIdFourAccepted, Signer.NegativeRecoveryIdAccepted and Signer.WrappedRecoveryIdLooksLegal) | Signer.Assemble, Signer.SignCorrected, Signer.SignDeterministicCorrected (used by Verifier.SignThenVerify) |

## Left out

- GenerateKeyPair (lines 53-73): it retries on fresh random bytes, so its outcome depends only on the random source. `Sign`'s random nonce is a parameter instead.
- UncompressPubkey and UncompressedPubkeyFromSeckey (lines 100-147): the uncompressed format comes from the `XY` type, which is not part of this model.
- The copy-and-compare at lines 165-169: it copies 32 bytes of a 32-byte digest, so the comparison cannot fail, and the model omits it.
- Keys.GenLoop: fuel bounds the number of hashes per rejection loop. A chain of more than `fuel` invalid iterates is reported as `OutOfFuel`, not as the source's unbounded loop. `Keys.GenLoopOutOfFuel` states exactly when that happens.
- Verifier.VerifySignature: a nil signature or key is treated as an empty slice. It still aborts, but with the length reason instead of the nil reason. Only the message's nil-ness is modelled (`Option`).
- Signer.Sign: `Number.SetBytes` is folded into the sign primitive, which receives the raw bytes.
- Logging, hex dumps, and the difference between `log.Panic` and `log.Fatal` (both are `Abort`).
- Correctness of the curve library: sign/recover inversion, ECDH symmetry, and a fixed test vector for SHA-256 all need curve and hash arithmetic. `Verifier.SignThenVerify` takes the library's sign/recover promise as a precondition at a single point.
- Cryptographic strength of the chain (one-wayness, forward secrecy): this is not a property of the byte-level logic.
- Go slice aliasing (`append(seedIn, seed1...)` may write into the caller's array): the model uses value semantics.

=== FILE: derivation.dfy ===
/** The deterministic key chain: an ECDH-salted hash and the iterator that
    threads a running seed through it. */
module Derivation {
  import opened Outcomes
  import opened Primitives
  import opened Validators
  import opened Keys
  import opened Ecdh

  /** One step of the chain: the seed for the next step and this step's key
      pair. */
  datatype ChainStep = ChainStep(nextSeed: Bytes32, pubkey: seq<byte>, seckey: seq<byte>)

  /** Secp256k1Hash: h = SHA256(input); take the secret key derived from h
      and the public key derived from SHA256(h), multiply them, and hash h
      followed by the product. A nil product appends nothing. */
  function Secp256k1Hash(a: Adapter, input: seq<byte>, fuel: nat): (r: Outcome<Bytes32>)
    ensures r.Abort? ==> IsLibraryFault(r.reason)
    ensures r.OutOfFuel? <==> DeterministicKeyPair(a, a.sha256(input), fuel).OutOfFuel?
                              || (DeterministicKeyPair(a, a.sha256(input), fuel).Ok?
                                  && DeterministicKeyPair(a, a.sha256(a.sha256(input)), fuel).OutOfFuel?)
    ensures r.Ok? ==> DeterministicKeyPair(a, a.sha256(input), fuel).Ok?
                      && DeterministicKeyPair(a, a.sha256(a.sha256(input)), fuel).Ok?
  {
    var hash := a.sha256(input);
    var first :- DeterministicKeyPair(a, hash, fuel);
    var second :- DeterministicKeyPair(a, a.sha256(hash), fuel);
    var shared :- ECDH(a, second.pubkey, first.seckey);
    Ok(a.sha256(hash + (if shared.Some? then shared.value else [])))
  }

  /** What the salted hash is made of: both internal key pairs are valid, so
      the ECDH gate never refuses them, and the result is the hash of h and
      the product of the second public key with the first secret key — or
      just SHA256(h) when the multiplication yields nil. */
  lemma SaltedHashComposition(a: Adapter, input: seq<byte>, fuel: nat)
    requires DeterministicKeyPair(a, a.sha256(input), fuel).Ok?
    requires DeterministicKeyPair(a, a.sha256(a.sha256(input)), fuel).Ok?
    ensures var hash := a.sha256(input);
            var first := DeterministicKeyPair(a, hash, fuel).value;
            var second := DeterministicKeyPair(a, a.sha256(hash), fuel).value;
            match a.multiply(second.pubkey, first.seckey)
            case None => Secp256k1Hash(a, input, fuel) == Ok(a.sha256(hash))
            case Some(product) =>
              if |product| == 33 then Secp256k1Hash(a, input, fuel) == Ok(a.sha256(hash + product))
              else Secp256k1Hash(a, input, fuel) == Abort(ProductLength)
  {
    var hash := a.sha256(input);
    assert hash + [] == hash;
  }

  /** DeterministicKeyPairIterator: next seed = Secp256k1Hash(seed); the pair
      is generateDeterministicKeyPair(SHA256(seed || next seed)). A step
      exists exactly when both of those exist. Every internal call receives
      a 32-byte seed, so the only aborts left are library faults. */
  function DeterministicKeyPairIterator(a: Adapter, seedIn: seq<byte>, fuel: nat): (r: Outcome<ChainStep>)
    ensures r.Abort? ==> IsLibraryFault(r.reason)
    ensures r.Ok? <==> Secp256k1Hash(a, seedIn, fuel).Ok?
                       && DeterministicKeyPair(a, a.sha256(seedIn + Secp256k1Hash(a, seedIn, fuel).value), fuel).Ok?
    ensures r.OutOfFuel? <==> Secp256k1Hash(a, seedIn, fuel).OutOfFuel?
                              || (Secp256k1Hash(a, seedIn, fuel).Ok?
                                  && DeterministicKeyPair(a, a.sha256(seedIn + Secp256k1Hash(a, seedIn, fuel).value), fuel).OutOfFuel?)
    ensures r.Ok? ==> Secp256k1Hash(a, seedIn, fuel) == Ok(r.value.nextSeed)
    ensures r.Ok? ==> DeterministicKeyPair(a, a.sha256(seedIn + r.value.nextSeed), fuel)
                      == Ok(KeyPair(r.value.pubkey, r.value.seckey))
    ensures r.Ok? ==> VerifySeckey(a, r.value.seckey) == 1 && VerifyPubkey(a, r.value.pubkey) == 1
                      && PubkeyFromSeckey(a, r.value.seckey) == Ok(r.value.pubkey)
  {
    var seed1 :- Secp256k1Hash(a, seedIn, fuel);
    var seed2 := a.sha256(seedIn + seed1);
    var pair :- DeterministicKeyPair(a, seed2, fuel);
    Ok(ChainStep(seed1, pair.pubkey, pair.seckey))
  }

  /** GenerateDeterministicKeyPair: exactly the iterator's pair, the next
      seed dropped. */
  function GenerateDeterministicKeyPair(a: Adapter, seed: seq<byte>, fuel: nat): (r: Outcome<KeyPair>)
    ensures r.Ok? <==> DeterministicKeyPairIterator(a, seed, fuel).Ok?
    ensures r.Ok? ==> r.value.pubkey == DeterministicKeyPairIterator(a, seed, fuel).value.pubkey
                      && r.value.seckey == DeterministicKeyPairIterator(a, seed, fuel).value.seckey
    ensures r.Abort? <==> DeterministicKeyPairIterator(a, seed, fuel).Abort?
  {
    var step :- DeterministicKeyPairIterator(a, seed, fuel);
    Ok(KeyPair(step.pubkey, step.seckey))
  }

  /** The chain's secret key is the least valid SHA-256 iterate of
      SHA256(seed || next seed). */
  lemma IteratorKeyIsLeastValidIterate(a: Adapter, seedIn: seq<byte>, fuel: nat)
    requires DeterministicKeyPairIterator(a, seedIn, fuel).Ok?
    ensures var step := DeterministicKeyPairIterator(a, seedIn, fuel).value;
            exists k: nat :: k <= fuel && IsLeastValidIterate(a, a.sha256(seedIn + step.nextSeed), k)
                             && step.seckey == HashIterate(a, a.sha256(seedIn + step.nextSeed), k)
  {
    var step := DeterministicKeyPairIterator(a, seedIn, fuel).value;
    DeterministicKeyIsLeastValidIterate(a, a.sha256(seedIn + step.nextSeed), fuel);
  }

  /** More fuel never changes a salted hash already determined. */
  lemma Secp256k1HashFuelMonotone(a: Adapter, input: seq<byte>, fuel: nat, more: nat)
    requires fuel <= more && !Secp256k1Hash(a, input, fuel).OutOfFuel?
    ensures Secp256k1Hash(a, input, more) == Secp256k1Hash(a, input, fuel)
  {
    var hash := a.sha256(input);
    DeterministicKeyPairFuelMonotone(a, hash, fuel, more);
    if DeterministicKeyPair(a, hash, fuel).Ok? {
      DeterministicKeyPairFuelMonotone(a, a.sha256(hash), fuel, more);
    }
  }

  /** More fuel never changes a chain step already determined. */
  lemma IteratorFuelMonotone(a: Adapter, seedIn: seq<byte>, fuel: nat, more: nat)
    requires fuel <= more && !DeterministicKeyPairIterator(a, seedIn, fuel).OutOfFuel?
    ensures DeterministicKeyPairIterator(a, seedIn, more) == DeterministicKeyPairIterator(a, seedIn, fuel)
  {
    Secp256k1HashFuelMonotone(a, seedIn, fuel, more);
    var seed1 := Secp256k1Hash(a, seedIn, fuel);
    if seed1.Ok? {
      DeterministicKeyPairFuelMonotone(a, a.sha256(seedIn + seed1.value), fuel, more);
    }
  }
}

=== FILE: ecdh.dfy ===
/** ECDH: a public point raised to a secret scalar. */
module Ecdh {
  import opened Outcomes
  import opened Primitives
  import opened Validators

  /** ECDH: wrong lengths abort; a public key VerifyPubkey refuses gives nil
      instead of aborting; an invalid secret key is only logged, so the
      multiplication still runs; a nil product is passed on as nil and a
      product that is not 33 bytes aborts. */
  function ECDH(a: Adapter, pub: seq<byte>, sec: seq<byte>): (r: Outcome<Option<seq<byte>>>)
    ensures r.Ok? || r.Abort?
    ensures r.Abort? <==> |sec| != 32 || |pub| != 33
                          || (VerifyPubkey(a, pub) == 1 && a.multiply(pub, sec).Some?
                              && |a.multiply(pub, sec).value| != 33)
    ensures |sec| == 32 && |pub| == 33 && r.Abort? ==> r.reason == ProductLength
    ensures |sec| == 32 && |pub| == 33 && VerifyPubkey(a, pub) != 1 ==> r == Ok(None)
    ensures r.Ok? && r.value.Some? ==>
      |r.value.value| == 33 && VerifyPubkey(a, pub) == 1 && a.multiply(pub, sec) == r.value
  {
    if |sec| != 32 then Abort(SeckeyLength)
    else if |pub| != 33 then Abort(PubkeyLength)
    // VerifySeckey(sec) != 1 is only logged here.
    else if VerifyPubkey(a, pub) != 1 then Ok(None)
    else
      match a.multiply(pub, sec)
      case None => Ok(None)
      case Some(product) =>
        if |product| != 33 then Abort(ProductLength) else Ok(Some(product))
  }

  /** The secret-key check does not gate the multiplication: ECDH gives the
      same outcome whatever the library's scalar check answers. */
  lemma EcdhIgnoresSeckeyValidity(a: Adapter, pub: seq<byte>, sec: seq<byte>, isValid: seq<byte> -> int)
    ensures ECDH(a.(seckeyIsValid := isValid), pub, sec) == ECDH(a, pub, sec)
  {
  }
}

=== FILE: keys.dfy ===
/** Public keys from secret keys, and the deterministic key pair obtained by
    rejection sampling over iterated SHA-256. */
module Keys {
  import opened Outcomes
  import opened Primitives
  import opened Validators

  datatype KeyPair = KeyPair(pubkey: seq<byte>, seckey: seq<byte>)

  /** The checked base-point multiplication shared by pubkeyFromSeckey and
      generateDeterministicKeyPair: generate, then insist on a non-nil,
      33-byte key that passes PubkeyIsValid and VerifyPubkey. The separate
      PubkeyIsValid test is subsumed by VerifyPubkey, so success means
      exactly that the generated key verifies. */
  function DerivePublicKey(a: Adapter, seckey: seq<byte>): (r: Outcome<seq<byte>>)
    ensures r.Ok? || (r.Abort? && IsLibraryFault(r.reason))
    ensures r.Ok? <==> a.generatePublicKey(seckey).Some?
                       && VerifyPubkey(a, a.generatePublicKey(seckey).value) == 1
    ensures r.Ok? ==> a.generatePublicKey(seckey) == Some(r.value) && |r.value| == 33
  {
    match a.generatePublicKey(seckey)
    case None => Abort(PubkeyMissing)
    case Some(pubkey) =>
      if |pubkey| != 33 then Abort(GeneratedPubkeyLength)
      else if a.pubkeyIsValid(pubkey) != 1 then Abort(PubkeyRejected)
      else if VerifyPubkey(a, pubkey) != 1 then Abort(PubkeyUnverified)
      else Ok(pubkey)
  }

  /** pubkeyFromSeckey (the package-internal one): a wrong length or an
      invalid scalar aborts, and so does any failure of the derivation. */
  function InternalPubkeyFromSeckey(a: Adapter, seckey: seq<byte>): (r: Outcome<seq<byte>>)
    ensures r.Ok? || r.Abort?
    ensures r.Ok? <==> VerifySeckey(a, seckey) == 1 && DerivePublicKey(a, seckey).Ok?
    ensures VerifySeckey(a, seckey) == -1 ==> r == Abort(SeckeyLength)
    ensures VerifySeckey(a, seckey) == -2 ==> r == Abort(SeckeyInvalid)
    ensures r.Ok? ==> a.generatePublicKey(seckey) == Some(r.value) && VerifyPubkey(a, r.value) == 1
  {
    if |seckey| != 32 then Abort(SeckeyLength)
    else if a.seckeyIsValid(seckey) != 1 then Abort(SeckeyInvalid)
    else DerivePublicKey(a, seckey)
  }

  /** PubkeyFromSeckey (exported): repeats the length check and re-checks the
      key with PubkeyIsValid; neither re-check can change the outcome. */
  function PubkeyFromSeckey(a: Adapter, seckey: seq<byte>): (r: Outcome<seq<byte>>)
    ensures r == InternalPubkeyFromSeckey(a, seckey)
    ensures r.Ok? ==> |r.value| == 33 && VerifySeckey(a, seckey) == 1 && VerifyPubkey(a, r.value) == 1
  {
    if |seckey| != 32 then Abort(SeckeyLength)
    else
      var pubkey :- InternalPubkeyFromSeckey(a, seckey);
      if a.pubkeyIsValid(pubkey) != 1 then Abort(PubkeyRejected)
      else Ok(pubkey)
  }

  /** The k-th SHA-256 iterate of a seed: SHA256(SHA256(... seed)). */
  function HashIterate(a: Adapter, seed: seq<byte>, k: nat): (r: seq<byte>)
    ensures k >= 1 ==> |r| == 32
    decreases k
  {
    if k == 0 then seed else HashIterate(a, a.sha256(seed), k - 1)
  }

  /** Each iterate is the hash of the previous iterate, never of the
      original seed. */
  lemma {:induction false} HashIterateStep(a: Adapter, seed: seq<byte>, k: nat)
    ensures HashIterate(a, seed, k + 1) == a.sha256(HashIterate(a, seed, k))
    decreases k
  {
    if k > 0 {
      HashIterateStep(a, a.sha256(seed), k - 1);
    }
  }

  /** k is the first positive iteration count whose iterate is a valid
      scalar. */
  ghost predicate IsLeastValidIterate(a: Adapter, seed: seq<byte>, k: nat) {
    && 1 <= k
    && a.seckeyIsValid(HashIterate(a, seed, k)) == 1
    && forall j :: 1 <= j < k ==> a.seckeyIsValid(HashIterate(a, seed, j)) != 1
  }

  /** The key pair for an accepted scalar (lines 175-197): it exists exactly
      when the checked derivation succeeds. */
  function KeyPairFromScalar(a: Adapter, seckey: seq<byte>): (r: Outcome<KeyPair>)
    ensures r.Ok? <==> DerivePublicKey(a, seckey).Ok?
    ensures r.Ok? ==> r.value.seckey == seckey && DerivePublicKey(a, seckey) == Ok(r.value.pubkey)
    ensures r.Ok? || (r.Abort? && IsLibraryFault(r.reason))
  {
    var pubkey :- DerivePublicKey(a, seckey);
    Ok(KeyPair(pubkey, seckey))
  }

  /** The `new_seckey` loop of generateDeterministicKeyPair, allowed at most
      `fuel` hashes: hash the current seed, retry from that hash while the
      scalar check rejects it, and derive the public key of the first
      accepted one. */
  function GenLoop(a: Adapter, seed: seq<byte>, fuel: nat): (r: Outcome<KeyPair>)
    ensures r.Ok? ==> |r.value.seckey| == 32 && a.seckeyIsValid(r.value.seckey) == 1
    ensures r.Ok? ==> |r.value.pubkey| == 33 && VerifyPubkey(a, r.value.pubkey) == 1
    ensures r.Ok? ==> a.generatePublicKey(r.value.seckey) == Some(r.value.pubkey)
    ensures r.Abort? ==> IsLibraryFault(r.reason)
    decreases fuel
  {
    if fuel == 0 then OutOfFuel
    else
      var next := a.sha256(seed);
      if a.seckeyIsValid(next) != 1 then GenLoop(a, next, fuel - 1)
      else KeyPairFromScalar(a, next)
  }

  /** When the loop stops it has stopped at the least valid iterate. */
  lemma {:induction false} GenLoopSound(a: Adapter, seed: seq<byte>, fuel: nat)
    requires !GenLoop(a, seed, fuel).OutOfFuel?
    ensures exists k: nat :: k <= fuel && IsLeastValidIterate(a, seed, k)
                        && GenLoop(a, seed, fuel) == KeyPairFromScalar(a, HashIterate(a, seed, k))
    decreases fuel
  {
    var next := a.sha256(seed);
    assert HashIterate(a, seed, 1) == next;
    if a.seckeyIsValid(next) == 1 {
      assert IsLeastValidIterate(a, seed, 1);
    } else {
      GenLoopSound(a, next, fuel - 1);
      var k: nat :| k <= fuel - 1 && IsLeastValidIterate(a, next, k)
               && GenLoop(a, next, fuel - 1) == KeyPairFromScalar(a, HashIterate(a, next, k));
      assert HashIterate(a, seed, k + 1) == HashIterate(a, next, k);
      forall j | 1 <= j < k + 1
        ensures a.seckeyIsValid(HashIterate(a, seed, j)) != 1
      {
        if j > 1 {
          assert HashIterate(a, seed, j) == HashIterate(a, next, j - 1);
        }
      }
      assert IsLeastValidIterate(a, seed, k + 1);
    }
  }

  /** Conversely, if the least valid iterate is within the bound, the loop
      stops exactly there. */
  lemma {:induction false} GenLoopPicksLeastValid(a: Adapter, seed: seq<byte>, fuel: nat, k: nat)
    requires k <= fuel && IsLeastValidIterate(a, seed, k)
    ensures GenLoop(a, seed, fuel) == KeyPairFromScalar(a, HashIterate(a, seed, k))
    decreases fuel
  {
    var next := a.sha256(seed);
    assert HashIterate(a, seed, 1) == next;
    if k > 1 {
      assert a.seckeyIsValid(next) != 1;
      assert HashIterate(a, seed, k) == HashIterate(a, next, k - 1);
      forall j | 1 <= j < k - 1
        ensures a.seckeyIsValid(HashIterate(a, next, j)) != 1
      {
        assert HashIterate(a, seed, j + 1) == HashIterate(a, next, j);
      }
      GenLoopPicksLeastValid(a, next, fuel - 1, k - 1);
    }
  }

  /** The loop runs out of fuel exactly when none of the first `fuel`
      iterates is a valid scalar. */
  lemma {:induction false} GenLoopOutOfFuel(a: Adapter, seed: seq<byte>, fuel: nat)
    ensures GenLoop(a, seed, fuel).OutOfFuel?
            <==> forall j :: 1 <= j <= fuel ==> a.seckeyIsValid(HashIterate(a, seed, j)) != 1
    decreases fuel
  {
    if fuel > 0 {
      var next := a.sha256(seed);
      assert HashIterate(a, seed, 1) == next;
      GenLoopOutOfFuel(a, next, fuel - 1);
      if a.seckeyIsValid(next) != 1 {
        if forall j :: 1 <= j <= fuel - 1 ==> a.seckeyIsValid(HashIterate(a, next, j)) != 1 {
          forall j | 1 <= j <= fuel
            ensures a.seckeyIsValid(HashIterate(a, seed, j)) != 1
          {
            if j > 1 {
              assert HashIterate(a, seed, j) == HashIterate(a, next, j - 1);
            }
          }
        } else {
          var j :| 1 <= j <= fuel - 1 && a.seckeyIsValid(HashIterate(a, next, j)) == 1;
          assert HashIterate(a, seed, j + 1) == HashIterate(a, next, j);
          assert a.seckeyIsValid(HashIterate(a, seed, j + 1)) == 1;
        }
      }
    }
  }

  /** The fuel is only a bound: once the loop stops, more fuel changes
      nothing. */
  lemma {:induction false} GenLoopFuelMonotone(a: Adapter, seed: seq<byte>, fuel: nat, more: nat)
    requires fuel <= more && !GenLoop(a, seed, fuel).OutOfFuel?
    ensures GenLoop(a, seed, more) == GenLoop(a, seed, fuel)
    decreases fuel
  {
    var next := a.sha256(seed);
    if a.seckeyIsValid(next) != 1 {
      GenLoopFuelMonotone(a, next, fuel - 1, more - 1);
    }
  }

  /** generateDeterministicKeyPair: a seed that is not 32 bytes (nil
      included) aborts; otherwise the bounded rejection loop, which runs out
      of fuel exactly when none of the first `fuel` iterates is a valid
      scalar. The pair it returns is a valid secret key and the very public
      key PubkeyFromSeckey gives for it. */
  function DeterministicKeyPair(a: Adapter, seed: seq<byte>, fuel: nat): (r: Outcome<KeyPair>)
    ensures |seed| != 32 ==> r == Abort(SeedLength)
    ensures r.OutOfFuel? <==> |seed| == 32
                              && forall j :: 1 <= j <= fuel ==> a.seckeyIsValid(HashIterate(a, seed, j)) != 1
    ensures |seed| == 32 && r.Abort? ==> IsLibraryFault(r.reason)
    ensures r.Ok? ==> VerifySeckey(a, r.value.seckey) == 1 && VerifyPubkey(a, r.value.pubkey) == 1
    ensures r.Ok? ==> PubkeyFromSeckey(a, r.value.seckey) == Ok(r.value.pubkey)
  {
    if |seed| != 32 then Abort(SeedLength)
    else
      GenLoopOutOfFuel(a, seed, fuel);
      GenLoop(a, seed, fuel)
  }

  /** For a 32-byte seed whose least valid iterate k is within the bound,
      the result is the key pair of SHA256^k(seed): it succeeds exactly when
      the public key of that iterate can be derived. */
  lemma DeterministicKeyPairPicksLeastValid(a: Adapter, seed: seq<byte>, fuel: nat, k: nat)
    requires |seed| == 32 && k <= fuel && IsLeastValidIterate(a, seed, k)
    ensures DeterministicKeyPair(a, seed, fuel) == KeyPairFromScalar(a, HashIterate(a, seed, k))
    ensures DeterministicKeyPair(a, seed, fuel).Ok? <==> DerivePublicKey(a, HashIterate(a, seed, k)).Ok?
  {
    GenLoopPicksLeastValid(a, seed, fuel, k);
  }

  /** The secret key of a deterministic pair is SHA256^k(seed) for the least
      k >= 1 whose iterate is a valid scalar, and the public key is the
      library's public key of it. */
  lemma DeterministicKeyIsLeastValidIterate(a: Adapter, seed: seq<byte>, fuel: nat)
    requires DeterministicKeyPair(a, seed, fuel).Ok?
    ensures exists k: nat :: k <= fuel && IsLeastValidIterate(a, seed, k)
                        && DeterministicKeyPair(a, seed, fuel).value.seckey == HashIterate(a, seed, k)
    ensures a.generatePublicKey(DeterministicKeyPair(a, seed, fuel).value.seckey)
            == Some(DeterministicKeyPair(a, seed, fuel).value.pubkey)
  {
    GenLoopSound(a, seed, fuel);
  }

  /** More fuel never changes a pair that was already determined. */
  lemma DeterministicKeyPairFuelMonotone(a: Adapter, seed: seq<byte>, fuel: nat, more: nat)
    requires fuel <= more && !DeterministicKeyPair(a, seed, fuel).OutOfFuel?
    ensures DeterministicKeyPair(a, seed, more) == DeterministicKeyPair(a, seed, fuel)
  {
    if |seed| == 32 {
      GenLoopFuelMonotone(a, seed, fuel, more);
    }
  }
}

=== FILE: outcomes.dfy ===
/** Result types shared by the model.

    The wrapper never throws: it either returns a value or stops the process
    through `log.Panic`, `log.Fatal` or a Go runtime panic. `Outcome` keeps the
    two apart, and adds `OutOfFuel` for the hash-rejection loop whose
    termination depends on the hash function and cannot be proved.
 */
module Outcomes {

  /** Some/None. Where the source compares a slice with `nil`, `None` is the
      nil slice; a recovered key that is "nil" is also `None`. */
  datatype Option<+T> = None | Some(value: T)

  /** Why a call stopped the process. */
  datatype Panic =
    // Caller errors the source refuses to handle gracefully.
    | SeedLength            // deterministic seed not 32 bytes
    | SeckeyLength          // secret key not 32 bytes
    | SeckeyInvalid         // secret key rejected by the scalar check
    | PubkeyLength          // caller's public key not 33 bytes
    | EmptyMessage          // Sign with a zero-length message
    | NilInput              // VerifySignature with a nil message
    | InvalidInput          // SignatureErrorString with nil message or bad lengths
    | SignatureLength       // signature not 65 bytes
    | Malleable             // VerifySignatureValidity: top bit of s set
    | RecoveryIdRange       // VerifySignatureValidity: recovery id >= 4
    // Results of the curve library the wrapper declares impossible.
    | PubkeyMissing         // public-key generation returned nil
    | GeneratedPubkeyLength // generated public key not 33 bytes
    | PubkeyRejected        // generated key refused by PubkeyIsValid
    | PubkeyUnverified      // generated key refused by VerifyPubkey
    | ProductLength         // point multiplication gave a point not 33 bytes
    | SignFailed            // the sign primitive reported failure
    | SignatureBytesShort   // r||s shorter than 64 bytes: index out of range
    | SignatureBytesLength  // r||s longer than 64 bytes
    | RecidOutOfRange       // the sign primitive returned a bad recovery id
    | RecoveredPubkeyNil    // recovery reported success without a key
    | RecoveredPubkeyLength // recovered key not 33 bytes

  /** The panics key derivation can raise once its inputs have the right
      sizes: each one means the curve library broke its own promise. */
  predicate IsLibraryFault(p: Panic) {
    p.PubkeyMissing? || p.GeneratedPubkeyLength? || p.PubkeyRejected?
    || p.PubkeyUnverified? || p.ProductLength?
  }

  /** A returned value, a process abort, or an exhausted iteration bound. */
  datatype Outcome<+T> = Ok(value: T) | Abort(reason: Panic) | OutOfFuel {

    predicate IsFailure() {
      !Ok?
    }

    function PropagateFailure<U>(): Outcome<U>
      requires !Ok?
    {
      if Abort? then Abort(reason) else OutOfFuel
    }

    function Extract(): T
      requires Ok?
    {
      value
    }
  }
}

=== FILE: primitives.dfy ===
/** The collaborators the wrapper calls but does not implement: SHA-256 and
    the curve library (scalar check, base-point multiplication, point checks
    and parsing, sign, recover, point multiplication).

    They are fields of `Adapter`, so every operation of the model is a
    function of the adapter and every property is proved for all of them.
    The only promise taken from them is SHA-256's 32-byte output, carried by
    the type `Bytes32`; everything else the library returns is checked by the
    wrapper, and the model keeps those checks.
 */
module Primitives {
  import opened Outcomes

  /** An unsigned 8-bit value. */
  newtype byte = b: int | 0 <= b < 256

  /** A 32-byte buffer: a digest, a nonce. */
  type Bytes32 = s: seq<byte> | |s| == 32 witness seq(32, i => 0 as byte)

  /** What `Signature.Sign` leaves behind: its return code, the bytes of
      `Signature.Bytes()` (r||s) and the recovery id written through `&recid`. */
  datatype SignOutput = SignOutput(ret: int, sigBytes: seq<byte>, recid: int)

  /** What `RecoverPublicKey` returns: a key (or nil) and a return code. */
  datatype RecoverOutput = RecoverOutput(pubkey: Option<seq<byte>>, ret: int)

  datatype Adapter = Adapter(
    /** SumSHA256 */
    sha256: seq<byte> -> Bytes32,
    /** SeckeyIsValid: 1 for a nonzero scalar below the group order */
    seckeyIsValid: seq<byte> -> int,
    /** GeneratePublicKey: base-point multiplication, nil on failure */
    generatePublicKey: seq<byte> -> Option<seq<byte>>,
    /** PubkeyIsValid: 1 for an acceptable compressed point */
    pubkeyIsValid: seq<byte> -> int,
    /** XY.ParsePubkey */
    parsePubkey: seq<byte> -> bool,
    /** XY.IsValid of the point that XY.ParsePubkey read from these bytes */
    parsedIsValid: seq<byte> -> bool,
    /** Signature.Sign on (secret key, message, nonce) followed by Bytes() */
    sign: (seq<byte>, seq<byte>, Bytes32) -> SignOutput,
    /** RecoverPublicKey on (r||s, message, recovery id) */
    recoverPublicKey: (seq<byte>, seq<byte>, int) -> RecoverOutput,
    /** Multiply: public point times secret scalar, nil on failure */
    multiply: (seq<byte>, seq<byte>) -> Option<seq<byte>>)

  /** Go's conversion `byte(x)` of an int: keep the low eight bits. */
  function ToByte(x: int): (b: byte)
    ensures b as int == x % 256
  {
    (x % 256) as byte
  }
}

=== FILE: signer.dfy ===
/** Recoverable signatures: 64 bytes r||s from the sign primitive followed
    by one recovery-id byte. */
module Signer {
  import opened Outcomes
  import opened Primitives
  import opened Validators

  /** The 65-byte assembly shared by Sign and SignDeterministic, as the
      source writes it: a failed primitive aborts, r||s shorter than 64 bytes
      hits an index out of range in the copy loop, a longer one aborts
      through log.Fatalf, and the recovery id is refused only when it is
      greater than 4 — so 4, and any negative id, slip through. */
  function AssembleAsWritten(out: SignOutput): (r: Outcome<seq<byte>>)
    ensures r.Ok? <==> out.ret == 1 && |out.sigBytes| == 64 && out.recid <= 4
    ensures r.Ok? ==> |r.value| == 65 && r.value[..64] == out.sigBytes
                      && r.value[64] as int == out.recid % 256
  {
    if out.ret != 1 then Abort(SignFailed)
    else if |out.sigBytes| < 64 then Abort(SignatureBytesShort)
    else if |out.sigBytes| != 64 then Abort(SignatureBytesLength)
    else if out.recid > 4 then Abort(RecidOutOfRange)
    else Ok(out.sigBytes + [ToByte(out.recid)])
  }

  /** A recovery id of 4 passes the as-written guard and yields a signature
      that the form check refuses: the signer emits a signature nothing can
      verify, where the corrected assembly aborts. */
  lemma RecoveryIdFourAccepted(out: SignOutput)
    requires out.ret == 1 && |out.sigBytes| == 64 && out.recid == 4
    ensures AssembleAsWritten(out).Ok? && AssembleAsWritten(out).value[64] == 4
    ensures !WellFormedSignature(AssembleAsWritten(out).value)
    ensures VerifySignatureValidity(AssembleAsWritten(out).value).Abort?
    ensures Assemble(out) == Abort(RecidOutOfRange)
  {
  }

  /** A recovery id of -1 also passes the as-written guard; Go's byte()
      turns it into 255, and the signature again fails the form check. */
  lemma NegativeRecoveryIdAccepted(out: SignOutput)
    requires out.ret == 1 && |out.sigBytes| == 64 && out.recid == -1
    ensures AssembleAsWritten(out).Ok? && AssembleAsWritten(out).value[64] == 255
    ensures !WellFormedSignature(AssembleAsWritten(out).value)
    ensures Assemble(out) == Abort(RecidOutOfRange)
  {
  }

  /** Ids -256 to -253 are worse: byte() wraps them to 0..3, so the
      as-written signature passes the form check with a recovery id the
      primitive never produced; the corrected assembly aborts. */
  lemma WrappedRecoveryIdLooksLegal(out: SignOutput)
    requires out.ret == 1 && |out.sigBytes| == 64 && -256 <= out.recid < -252
    ensures AssembleAsWritten(out).Ok? && AssembleAsWritten(out).value[64] as int == out.recid + 256
    ensures out.sigBytes[32] < 0x80 ==> WellFormedSignature(AssembleAsWritten(out).value)
    ensures Assemble(out) == Abort(RecidOutOfRange)
  {
  }

  /** The assembly with the recovery-id guard the layout needs (ids 0..3):
      every signature it returns carries r||s in bytes 0..63 and the
      recovery id in byte 64. */
  function Assemble(out: SignOutput): (r: Outcome<seq<byte>>)
    ensures r.Ok? || r.Abort?
    ensures r.Ok? <==> out.ret == 1 && |out.sigBytes| == 64 && 0 <= out.recid < 4
    ensures r.Ok? ==> |r.value| == 65 && r.value[..64] == out.sigBytes
                      && r.value[64] as int == out.recid && r.value[64] < 4
  {
    if out.ret != 1 then Abort(SignFailed)
    else if |out.sigBytes| < 64 then Abort(SignatureBytesShort)
    else if |out.sigBytes| != 64 then Abort(SignatureBytesLength)
    else if out.recid < 0 || out.recid > 3 then Abort(RecidOutOfRange)
    else Ok(out.sigBytes + [ToByte(out.recid)])
  }

  /** On every recovery id the primitive is meant to return, the corrected
      assembly is the source's. */
  lemma AssembleAgreesOnLegalIds(out: SignOutput)
    requires 0 <= out.recid < 4
    ensures Assemble(out) == AssembleAsWritten(out)
  {
  }

  /** The checks Sign makes before it calls the primitive (lines 227-235). */
  function CheckSigningInput(a: Adapter, msg: seq<byte>, seckey: seq<byte>): Outcome<()>
  {
    if |seckey| != 32 then Abort(SeckeyLength)
    else if a.seckeyIsValid(seckey) != 1 then Abort(SeckeyInvalid)
    else if |msg| == 0 then Abort(EmptyMessage)
    else Ok(())
  }

  /** Sign, as written: a secret key that is not 32 bytes or not a valid
      scalar, or an empty message, aborts before the primitive runs. `nonce`
      is the 32 random bytes the source draws. Byte 64 is the primitive's
      recovery id reduced to eight bits, and the signature is well-formed
      exactly when s has its top bit clear and that byte is below 4: no
      low-S normalisation is applied, and the `> 4` guard lets ids 4 and
      below 0 through. */
  function Sign(a: Adapter, msg: seq<byte>, seckey: seq<byte>, nonce: Bytes32): (r: Outcome<seq<byte>>)
    ensures r.Ok? || r.Abort?
    ensures VerifySeckey(a, seckey) == -1 ==> r == Abort(SeckeyLength)
    ensures VerifySeckey(a, seckey) == -2 ==> r == Abort(SeckeyInvalid)
    ensures VerifySeckey(a, seckey) == 1 && |msg| == 0 ==> r == Abort(EmptyMessage)
    ensures r.Ok? <==> VerifySeckey(a, seckey) == 1 && |msg| > 0
                       && a.sign(seckey, msg, nonce).ret == 1 && |a.sign(seckey, msg, nonce).sigBytes| == 64
                       && a.sign(seckey, msg, nonce).recid <= 4
    ensures r.Ok? ==> |r.value| == 65
                      && r.value[..64] == a.sign(seckey, msg, nonce).sigBytes
                      && r.value[64] as int == a.sign(seckey, msg, nonce).recid % 256
    ensures r.Ok? ==> (WellFormedSignature(r.value)
                       <==> r.value[32] < 0x80 && a.sign(seckey, msg, nonce).recid % 256 < 4)
  {
    var _ :- CheckSigningInput(a, msg, seckey);
    AssembleAsWritten(a.sign(seckey, msg, nonce))
  }

  /** SignDeterministic, as written: the nonce is SHA256(nonceSeed). Unlike
      Sign it does not check the secret key or the message; where Sign's
      checks pass, it is Sign with that nonce. */
  function SignDeterministic(a: Adapter, msg: seq<byte>, seckey: seq<byte>, nonceSeed: seq<byte>): (r: Outcome<seq<byte>>)
    ensures r.Ok? || r.Abort?
    ensures VerifySeckey(a, seckey) == 1 && |msg| > 0 ==> r == Sign(a, msg, seckey, a.sha256(nonceSeed))
    ensures r.Ok? <==> a.sign(seckey, msg, a.sha256(nonceSeed)).ret == 1
                       && |a.sign(seckey, msg, a.sha256(nonceSeed)).sigBytes| == 64
                       && a.sign(seckey, msg, a.sha256(nonceSeed)).recid <= 4
    ensures r.Ok? ==> |r.value| == 65
                      && r.value[..64] == a.sign(seckey, msg, a.sha256(nonceSeed)).sigBytes
                      && r.value[64] as int == a.sign(seckey, msg, a.sha256(nonceSeed)).recid % 256
  {
    var nonce := a.sha256(nonceSeed);
    AssembleAsWritten(a.sign(seckey, msg, nonce))
  }

  /** Sign with the corrected recovery-id guard: it refuses exactly the ids
      outside 0..3, agrees with Sign on every other primitive answer, and
      every signature it returns carries the id itself in byte 64 and is
      well-formed exactly when s has its top bit clear. */
  function SignCorrected(a: Adapter, msg: seq<byte>, seckey: seq<byte>, nonce: Bytes32): (r: Outcome<seq<byte>>)
    ensures r.Ok? || r.Abort?
    ensures r.Ok? <==> VerifySeckey(a, seckey) == 1 && |msg| > 0
                       && a.sign(seckey, msg, nonce).ret == 1 && |a.sign(seckey, msg, nonce).sigBytes| == 64
                       && 0 <= a.sign(seckey, msg, nonce).recid < 4
    ensures 0 <= a.sign(seckey, msg, nonce).recid < 4 ==> r == Sign(a, msg, seckey, nonce)
    ensures r.Ok? ==> Sign(a, msg, seckey, nonce) == r
    ensures Sign(a, msg, seckey, nonce).Ok? && !(0 <= a.sign(seckey, msg, nonce).recid < 4)
            ==> r == Abort(RecidOutOfRange)
    ensures r.Ok? ==> r.value[64] as int == a.sign(seckey, msg, nonce).recid
                      && (WellFormedSignature(r.value) <==> r.value[32] < 0x80)
  {
    var _ :- CheckSigningInput(a, msg, seckey);
    Assemble(a.sign(seckey, msg, nonce))
  }

  /** SignDeterministic with the corrected recovery-id guard: still no key
      or message checks, but every id outside 0..3 is refused. It is
      SignCorrected with nonce SHA256(nonceSeed) wherever Sign's checks
      pass, and agrees with SignDeterministic on ids 0..3. */
  function SignDeterministicCorrected(a: Adapter, msg: seq<byte>, seckey: seq<byte>, nonceSeed: seq<byte>): (r: Outcome<seq<byte>>)
    ensures r.Ok? || r.Abort?
    ensures r.Ok? <==> a.sign(seckey, msg, a.sha256(nonceSeed)).ret == 1
                       && |a.sign(seckey, msg, a.sha256(nonceSeed)).sigBytes| == 64
                       && 0 <= a.sign(seckey, msg, a.sha256(nonceSeed)).recid < 4
    ensures VerifySeckey(a, seckey) == 1 && |msg| > 0 ==> r == SignCorrected(a, msg, seckey, a.sha256(nonceSeed))
    ensures 0 <= a.sign(seckey, msg, a.sha256(nonceSeed)).recid < 4 ==> r == SignDeterministic(a, msg, seckey, nonceSeed)
    ensures r.Ok? ==> |r.value| == 65 && r.value[..64] == a.sign(seckey, msg, a.sha256(nonceSeed)).sigBytes
                      && r.value[64] as int == a.sign(seckey, msg, a.sha256(nonceSeed)).recid
  {
    var nonce := a.sha256(nonceSeed);
    Assemble(a.sign(seckey, msg, nonce))
  }
}

=== FILE: validators.dfy ===
/** The key and signature validators: integer return codes over raw bytes. */
module Validators {
  import opened Outcomes
  import opened Primitives

  /** VerifySeckey: -1 for a wrong length, -2 for a scalar the library
      rejects, 1 for a usable secret key. */
  function VerifySeckey(a: Adapter, seckey: seq<byte>): (r: int)
    ensures r in {1, -1, -2}
    ensures r == -1 <==> |seckey| != 32
    ensures r == -2 <==> |seckey| == 32 && a.seckeyIsValid(seckey) != 1
    ensures r == 1 <==> |seckey| == 32 && a.seckeyIsValid(seckey) == 1
  {
    if |seckey| != 32 then -1
    else if a.seckeyIsValid(seckey) != 1 then -2
    else 1
  }

  /** VerifyPubkey: the first failing check decides the code — length (-1),
      PubkeyIsValid (-3), parse (-2), validity of the parsed point (-4). */
  function VerifyPubkey(a: Adapter, pubkey: seq<byte>): (r: int)
    ensures r in {1, -1, -2, -3, -4}
    ensures r == -1 <==> |pubkey| != 33
    ensures r == -3 <==> |pubkey| == 33 && a.pubkeyIsValid(pubkey) != 1
    ensures r == -2 <==> |pubkey| == 33 && a.pubkeyIsValid(pubkey) == 1 && !a.parsePubkey(pubkey)
    ensures r == -4 <==> |pubkey| == 33 && a.pubkeyIsValid(pubkey) == 1 && a.parsePubkey(pubkey)
                         && !a.parsedIsValid(pubkey)
    ensures r == 1 <==> |pubkey| == 33 && a.pubkeyIsValid(pubkey) == 1 && a.parsePubkey(pubkey)
                        && a.parsedIsValid(pubkey)
  {
    if |pubkey| != 33 then -1
    else if a.pubkeyIsValid(pubkey) != 1 then -3
    else if !a.parsePubkey(pubkey) then -2
    else if !a.parsedIsValid(pubkey) then -4
    else 1
  }

  /** The checks of VerifyPubkey run in a fixed order: once one fails, the
      library answers to the later checks are never consulted, so replacing
      them leaves the code unchanged. */
  lemma VerifyPubkeyConsultsInOrder(a: Adapter, pubkey: seq<byte>,
                                    isValid: seq<byte> -> int,
                                    parse: seq<byte> -> bool,
                                    parsedValid: seq<byte> -> bool)
    ensures |pubkey| != 33 ==>
      VerifyPubkey(a.(pubkeyIsValid := isValid, parsePubkey := parse, parsedIsValid := parsedValid), pubkey) == -1
    ensures |pubkey| == 33 && a.pubkeyIsValid(pubkey) != 1 ==>
      VerifyPubkey(a.(parsePubkey := parse, parsedIsValid := parsedValid), pubkey) == -3
    ensures |pubkey| == 33 && a.pubkeyIsValid(pubkey) == 1 && !a.parsePubkey(pubkey) ==>
      VerifyPubkey(a.(parsedIsValid := parsedValid), pubkey) == -2
  {
  }

  /** The canonical signature form: 65 bytes, the top bit of s (byte 32)
      clear, a recovery id (byte 64) in 0..3. */
  predicate WellFormedSignature(sig: seq<byte>) {
    |sig| == 65 && sig[32] < 0x80 && sig[64] < 4
  }

  /** VerifySignatureValidity: returns 1 for a well-formed signature. Every
      rejection goes through log.Fatal, so the `return 0` lines after them
      are never reached and the function never yields 0. */
  function VerifySignatureValidity(sig: seq<byte>): (r: Outcome<int>)
    ensures r == Ok(1) <==> WellFormedSignature(sig)
    ensures !WellFormedSignature(sig) ==> r.Abort?
    ensures r.Ok? ==> r.value == 1
  {
    if |sig| != 65 then Abort(SignatureLength)
    else if sig[32] / 128 == 1 then Abort(Malleable)  // Go: sig[32] >> 7 == 1
    else if sig[64] >= 4 then Abort(RecoveryIdRange)
    else Ok(1)
  }
}

=== FILE: verifier.dfy ===
/** Public-key recovery and the two signature verifiers: one answers with an
    int, the other with a reason string. */
module Verifier {
  import opened Outcomes
  import opened Primitives
  import opened Validators
  import opened Keys
  import opened Signer

  const NoError := "No Error!"
  const MalleabilityFailure := "signature fails malleability requirement"
  const RecoveryIdFailure := "signature recovery byte is invalid, must be 0 to 3"
  const RecoveryFailure := "pubkey from signature failed"
  const KeyMismatch := "input pubkey and recovered pubkey do not match"

  /** The library's answer for a 65-byte signature: recovery from r||s with
      byte 64 as the recovery id. */
  function Recovery(a: Adapter, msg: seq<byte>, sig: seq<byte>): RecoverOutput
    requires |sig| == 65
  {
    a.recoverPublicKey(sig[..64], msg, sig[64] as int)
  }

  /** RecoverPubkey: a signature that is not 65 bytes aborts; a failed
      recovery is reported as nil rather than aborting; a recovery that
      claims success must yield a 33-byte key or the call aborts. */
  function RecoverPubkey(a: Adapter, msg: seq<byte>, sig: seq<byte>): (r: Outcome<Option<seq<byte>>>)
    ensures r.Ok? || r.Abort?
    ensures |sig| != 65 ==> r == Abort(SignatureLength)
    ensures r == Ok(None) <==> |sig| == 65 && Recovery(a, msg, sig).ret != 1
    ensures r.Ok? && r.value.Some? <==>
      |sig| == 65 && Recovery(a, msg, sig).ret == 1 && Recovery(a, msg, sig).pubkey.Some?
      && |Recovery(a, msg, sig).pubkey.value| == 33
    ensures r.Ok? && r.value.Some? ==> |r.value.value| == 33 && Recovery(a, msg, sig).pubkey == r.value
  {
    if |sig| != 65 then Abort(SignatureLength)
    else
      var out := Recovery(a, msg, sig);
      if out.ret != 1 then Ok(None)
      else match out.pubkey
        case None => Abort(RecoveredPubkeyNil)
        case Some(pubkey) =>
          if |pubkey| != 33 then Abort(RecoveredPubkeyLength) else Ok(Some(pubkey))
  }

  /** VerifySignature: a nil message, a signature that is not 65 bytes or a
      key that is not 33 bytes aborts. Otherwise it answers 1 exactly when
      the signature is well-formed and recovers to `pubkey` byte for byte,
      and 0 in every other case; a malleable signature or a bad recovery id
      is refused without consulting recovery. */
  function VerifySignature(a: Adapter, msg: Option<seq<byte>>, sig: seq<byte>, pubkey: seq<byte>): (r: Outcome<int>)
    ensures r.Ok? ==> r.value == 0 || r.value == 1
    ensures r == Ok(1) <==> msg.Some? && WellFormedSignature(sig) && |pubkey| == 33
                            && RecoverPubkey(a, msg.value, sig) == Ok(Some(pubkey))
    ensures msg.Some? && |sig| == 65 && |pubkey| == 33 && !WellFormedSignature(sig) ==> r == Ok(0)
    ensures r.Abort? <==> msg.None? || |sig| != 65 || |pubkey| != 33
                          || (WellFormedSignature(sig) && RecoverPubkey(a, msg.value, sig).Abort?)
    ensures r.Ok? || r.Abort?
  {
    if msg.None? then Abort(NilInput)
    else if |sig| != 65 then Abort(SignatureLength)
    else if |pubkey| != 33 then Abort(PubkeyLength)
    else if sig[32] / 128 == 1 then Ok(0)  // Go: sig[32] >> 7 == 1
    else if sig[64] >= 4 then Ok(0)
    else
      var recovered :- RecoverPubkey(a, msg.value, sig);
      match recovered
      case None => Ok(0)
      case Some(pubkey2) =>
        if |pubkey2| != 33 then Abort(RecoveredPubkeyLength)
        else if pubkey != pubkey2 then Ok(0)
        else Ok(1)
  }

  /** A signature with the top bit of s set, or a recovery id of 4 or more,
      is refused whatever the message, the key and the recovery primitive:
      replacing the primitive changes nothing. */
  lemma MalformedNeverConsultsRecovery(a: Adapter, msg: seq<byte>, sig: seq<byte>, pubkey: seq<byte>,
                                       recover: (seq<byte>, seq<byte>, int) -> RecoverOutput)
    requires |sig| == 65 && |pubkey| == 33
    requires sig[32] >= 0x80 || sig[64] >= 4
    ensures VerifySignature(a.(recoverPublicKey := recover), Some(msg), sig, pubkey) == Ok(0)
    ensures VerifySignature(a, Some(msg), sig, pubkey) == Ok(0)
  {
  }

  /** SignatureErrorString: the checks of VerifySignature in the same order,
      each failure named by its own message. */
  function SignatureErrorString(a: Adapter, msg: Option<seq<byte>>, sig: seq<byte>, pubkey: seq<byte>): (r: Outcome<string>)
    ensures r.Ok? || r.Abort?
    ensures r.Abort? <==> VerifySignature(a, msg, sig, pubkey).Abort?
    ensures r == Ok(NoError) <==> VerifySignature(a, msg, sig, pubkey) == Ok(1)
    ensures r == Ok(MalleabilityFailure) <==>
      VerifySignature(a, msg, sig, pubkey) == Ok(0) && sig[32] >= 0x80
    ensures r == Ok(RecoveryIdFailure) <==>
      VerifySignature(a, msg, sig, pubkey) == Ok(0) && sig[32] < 0x80 && sig[64] >= 4
    ensures r == Ok(RecoveryFailure) <==>
      VerifySignature(a, msg, sig, pubkey) == Ok(0) && WellFormedSignature(sig)
      && RecoverPubkey(a, msg.value, sig) == Ok(None)
    ensures r == Ok(KeyMismatch) <==>
      VerifySignature(a, msg, sig, pubkey) == Ok(0) && WellFormedSignature(sig)
      && RecoverPubkey(a, msg.value, sig).Ok? && RecoverPubkey(a, msg.value, sig).value.Some?
      && RecoverPubkey(a, msg.value, sig).value.value != pubkey
  {
    if msg.None? || |sig| != 65 || |pubkey| != 33 then Abort(InvalidInput)
    else if sig[32] / 128 == 1 then Ok(MalleabilityFailure)  // Go: sig[32] >> 7 == 1
    else if sig[64] >= 4 then Ok(RecoveryIdFailure)
    else
      var recovered :- RecoverPubkey(a, msg.value, sig);
      match recovered
      case None => Ok(RecoveryFailure)
      case Some(pubkey2) =>
        if pubkey != pubkey2 then Ok(KeyMismatch) else Ok(NoError)
  }

  /** The two verifiers agree: both abort together, 1 pairs with the
      success string, and every 0 pairs with exactly one of the four
      failure strings. */
  lemma VerifiersAgree(a: Adapter, msg: Option<seq<byte>>, sig: seq<byte>, pubkey: seq<byte>)
    ensures VerifySignature(a, msg, sig, pubkey).Ok? <==> SignatureErrorString(a, msg, sig, pubkey).Ok?
    ensures VerifySignature(a, msg, sig, pubkey) == Ok(0) <==>
      SignatureErrorString(a, msg, sig, pubkey).Ok?
      && SignatureErrorString(a, msg, sig, pubkey).value
         in [MalleabilityFailure, RecoveryIdFailure, RecoveryFailure, KeyMismatch]
  {
  }

  /** Sign then verify: if the library recovers, from the primitive's r||s and
      recovery id, the public key of the signing key, and the primitive's s
      is low, the signature of the corrected signer recovers to that key and
      verifies against it. */
  lemma SignThenVerify(a: Adapter, msg: seq<byte>, seckey: seq<byte>, nonce: Bytes32)
    requires SignCorrected(a, msg, seckey, nonce).Ok? && PubkeyFromSeckey(a, seckey).Ok?
    requires a.recoverPublicKey(a.sign(seckey, msg, nonce).sigBytes, msg, a.sign(seckey, msg, nonce).recid)
             == RecoverOutput(Some(PubkeyFromSeckey(a, seckey).value), 1)
    requires SignCorrected(a, msg, seckey, nonce).value[32] < 0x80
    ensures RecoverPubkey(a, msg, SignCorrected(a, msg, seckey, nonce).value) == Ok(Some(PubkeyFromSeckey(a, seckey).value))
    ensures VerifySignature(a, Some(msg), SignCorrected(a, msg, seckey, nonce).value, PubkeyFromSeckey(a, seckey).value) == Ok(1)
  {
  }
}
